=== FILE: README.md ===
# Password and TOTP second-factor login: a Dafny model

This project models the request handlers of a small Express service that
signs users in with email and password and, optionally, a time-based
one-time password (TOTP). The handlers revolve around one user record:

    { id, email, password (a bcrypt digest), twoFactorEnabled, twoFactorSecret? }

Each handler is a pure transition from the request facts and the user table
to a reply and the new table:

- the `api` 2FA controller (`setup2FA`, `verify2FA`, `validate2FA`,
  `getUserId`), in module `TwoFaApi`;
- the older 2FA controller of the `src` tree, in module `TwoFaLegacy`;
- the auth controller's `register` and `login`, in module `Auth`;
- the local strategy's verify callback and the session
  (de)serialization by id, in module `Passport`.

Supporting modules:

- `Js` covers absent values and JavaScript truthiness.
- `Http` covers the session user, the reply bodies and the message
  strings.
- `Users` holds the record and the table. The table is a sequence of rows
  plus the autoincrement counter, with lookup by id or email, single-row
  update and insert.
- `Crypto` holds the library calls as uninterpreted functions.

`Variants` states how the two 2FA controllers differ on the same inputs.
`Runs` serves sequences of requests and proves the invariants over them.

The central invariant is that a user with `twoFactorEnabled` has a
non-empty secret on file (`Users.TwoFaInvariant`). Registration keeps it,
and so does every 2FA handler of either controller. For the older
controller this holds only because the secret generator never returns an
empty string.

How the environment is modelled:

- **TOTP check, bcrypt hash and compare.** These are fields of
  `Crypto.Oracles`, which are function values the model knows nothing
  about. No TOTP arithmetic and no test vectors appear.
- **Generated secret.** It is a parameter of each setup request.
- **Failing calls.** Every request carries the set of external calls that
  throw (`Http.Call`): the ORM calls, QR rendering, bcrypt, and the TOTP
  library's secret generation and code check. What a throw does depends
  on the code:
  - In the `api` 2FA controller it becomes a 500 reply.
  - In the `src` 2FA controller there is no try/catch, so it becomes
    `NoReply`: the handler's promise rejects and the handler writes no
    reply. The QR rendering error is the exception: its callback replies
    500.
  - In `register` the lookup and the insert sit in a try/catch and become
    500; the password hashing sits before the try block and becomes
    `NoReply`.
- **Row lookup by the ORM.** `findUnique` returns the first row that
  matches.
- **ORM update.** `update` on an id that has no row throws. This is the
  ORM's behaviour, and the ORM is not part of this model.
- **Missing session id.** The legacy handlers pass `req.user.id`
  unchecked. An absent id makes the ORM call throw.

Where the intended design of such a service and the code disagree, the model follows the code:

- Login refusals are not uniform in cost. The local strategy's two
  refusals carry different messages, "Incorrect email." for an unknown
  email and "Incorrect password." for a wrong password
  (`Passport.Authenticate`). Whether a client sees these messages is up to
  passport, which is not modelled, and the login route passes it no
  failure options (src/routes/auth.routes.ts:9), so with passport's
  defaults both refusals are a bare 401. The code departs from the
  intended "same error, comparable time" in timing: an unknown email is
  refused before any password comparison (api/src/config/passport.ts:17
  comes before line 19). `login` runs only after the strategy accepts, so
  the 401 "Authentication failed." of `Auth.Login` is not the reply to a
  wrong password on this route.
- `login` returns `{ require2fa: true }` without a user id.
- Enrolment does not reset `twoFactorEnabled` in the `src` controller (see
  Findings).
- No token is ever issued. The code relies on the session.
- The session is established at the password step, before any second
  factor. On the login route the local strategy runs first
  (src/routes/auth.routes.ts:9), and it logs the user into the session,
  which serializes the id. The `login` reply to a 2FA user carries only
  the challenge. Still, the session already restores the full row, and
  the 2FA handlers check nothing but the session user. So a user who has
  given only the password can already call setup, and the `api` setup
  then clears `twoFactorEnabled` without any code
  (`Runs.PasswordSessionSkipsSecondFactor`). This holds provided the
  `isAuthenticated` middleware (imported at api/src/routes/twofa.routes.ts:4) admits
  any logged-in session and both source trees share this passport
  configuration; the middleware's file and the `src` tree's own
  `./config/passport` (src/app.ts:9) are not part of this model.

## Model

| member | source | states |
|---|---|---|
| TwoFaApi.GetUserId | api/src/controllers/twofa.controller.ts:11-14 | yields an id only for a session user with a truthy id (never 0), and then exactly that id; no session user or a falsy id yields none |
| TwoFaApi.Setup | api/src/controllers/twofa.controller.ts:20-53 | no session id: 401 and no write; a throwing secret generator, a missing row or a failing update: 500 and no write; otherwise the caller's row, and no other, gets the new secret and the flag false in one write, even if it was true, and the reply is 200 with that secret, or 500 if QR rendering fails after the write |
| TwoFaApi.CheckCode | api/src/controllers/twofa.controller.ts:60-86 | guards in source order: 401 without a session id, then 400 "Token is required" for a falsy token before any lookup, 500 on a failing lookup, 400 "2FA not setup" for a missing row or falsy secret, 500 when the code check throws, 401 "Invalid token" for a rejected code; passes exactly when the code check does not throw and accepts the code for the stored secret with window 1 |
| TwoFaApi.Verify | api/src/controllers/twofa.controller.ts:58-101 | replies `{success: true}` exactly when the guards pass and the update goes through, and then only the caller's flag becomes true, secret unchanged; every other reply leaves the table unchanged |
| TwoFaApi.Validate | api/src/controllers/twofa.controller.ts:106-145 | never changes the table; replies `{success: true}` exactly when the shared guards pass, otherwise sends the guard's refusal |
| TwoFaApi.ValidateAgreesWithVerify | api/src/controllers/twofa.controller.ts:129-134 | with the same window, validate sends the very reply verify sends on every input on which verify's update does not fail |
| TwoFaApi.SetupPreservesInvariant | api/src/controllers/twofa.controller.ts:33-39 | setup keeps "enabled implies non-empty secret" for every generated secret, because it clears the flag |
| TwoFaApi.VerifyPreservesInvariant | api/src/controllers/twofa.controller.ts:76-92 | verify keeps the invariant: it sets the flag only on a row whose secret is truthy |
| TwoFaApi.HandlersPreserveValid | api/src/controllers/twofa.controller.ts:33-39 | no 2FA handler changes ids, emails or the counter, so ids and emails stay unique |
| TwoFaLegacy.Setup | src/controllers/twofa.controller.ts:8-23 | no session user: 401 text; a throwing secret generator or a throwing or impossible update: no reply, no write; otherwise only the caller's secret is replaced, its flag keeps its old value, and the reply is 200 with the secret, or 500 "Error generating QR code" after the write |
| TwoFaLegacy.CheckCode | src/controllers/twofa.controller.ts:25-41 | no token guard: 401 text without a session user, no reply on a throwing lookup, 400 "2FA not setup", no reply when the code check throws, 401 "Invalid token"; passes exactly when the code check, with the library's default window, does not throw and accepts the token (possibly absent) for the stored secret |
| TwoFaLegacy.Verify | src/controllers/twofa.controller.ts:25-52 | `{success: true}` exactly when the guards pass and the update goes through, then only the caller's flag becomes true; an update that throws leaves no reply; every other outcome leaves the table unchanged |
| TwoFaLegacy.Validate | src/controllers/twofa.controller.ts:54-77 | never changes the table; accepts exactly when the shared guards pass |
| TwoFaLegacy.ValidateAgreesWithVerify | src/controllers/twofa.controller.ts:66-70 | validate sends the reply verify sends whenever verify's update does not throw |
| TwoFaLegacy.SetupPreservesInvariant | src/controllers/twofa.controller.ts:11-17 | legacy setup keeps the invariant provided the generated secret is non-empty |
| TwoFaLegacy.VerifyPreservesInvariant | src/controllers/twofa.controller.ts:33-47 | legacy verify keeps the invariant: the flag is set only where a truthy secret is stored |
| TwoFaLegacy.HandlersPreserveValid | src/controllers/twofa.controller.ts:12-17 | the legacy handlers never change ids, emails or the counter |
| Auth.Register | src/controllers/auth.controller.ts:7-32 | a hashing failure gives no reply; an existing email gives 400 "User already exists." and creates nothing; lookup or create failures give 500 and no change; otherwise exactly one row is appended holding the digest of the password (2FA off, no secret) and the 201 reply carries only id and email; 201 happens exactly when no call fails and the email is new |
| Auth.RegisterPreserves | src/controllers/auth.controller.ts:12-22 | registration keeps emails and ids unique and the second-factor invariant |
| Auth.Login | src/controllers/auth.controller.ts:34-56 | `{require2fa: true}` exactly for a user whose flag is true, with no user info; any other user gets 200 "User logged in successfully." with its id, email and a false flag; 401 exactly when there is no user |
| Passport.Authenticate | api/src/config/passport.ts:14-26 | success only for the stored row with that email whose digest the comparison accepts; "Incorrect email." exactly when no row has the email, whether or not the comparison would fail; "Incorrect password." only when such a row exists and the comparison rejects; an error exactly when the lookup throws or, for a known email, the comparison throws |
| Passport.AuthenticateStored | api/src/config/passport.ts:16-22 | for a stored user, a matching password authenticates that very row, a non-matching one is refused with "Incorrect password.", never "Incorrect email." |
| Passport.DeserializeUser | api/src/config/passport.ts:35-42 | an error exactly when the lookup throws; otherwise the row with that id, or nothing when none has it |
| Passport.SessionRoundTrip | api/src/config/passport.ts:31-38 | `Passport.SerializeUser` keeps only the id; serializing a stored user and deserializing that id gives back that same row |
| Variants.SetupVariantsDiffer | src/controllers/twofa.controller.ts:12-17 | for a stored, signed-in user both setups store and return the new secret; the api one clears the flag, the legacy one keeps it |
| Variants.LegacySetupKeepsStaleEnablement | src/controllers/twofa.controller.ts:12-17 | concrete input: an enabled user re-running legacy setup stays enabled against the new, never-confirmed secret |
| Variants.AbsentTokenHandling | src/controllers/twofa.controller.ts:57-70 | without a token the api validate answers 400 "Token is required", even when the code check would throw; the legacy one answers whatever the library says about an absent token, and nothing when that call throws |
| Variants.ValidateVariantsAgree | src/controllers/twofa.controller.ts:66-70 | when the library answers the same for window 1 and its default window and does not throw, the two validate handlers give identical results for every present token; when the code check throws, the api one replies 500 and the legacy one not at all |
| Runs.RunPreserves | api/src/interfaces/user.interface.ts:5-6 | any sequence of register and 2FA requests keeps the table valid and every enabled user with a non-empty secret; for the legacy controller, given non-empty generated secrets |
| Runs.EnrolmentRoundTrip | api/src/controllers/twofa.controller.ts:81-93 | setup then verify with a code the library accepts for the new secret leaves the user enabled with that secret; the login reply then carries only the challenge, and the same code validates at that same moment |
| Runs.PasswordLogin | src/controllers/auth.controller.ts:38-51 | after the local strategy accepts, the login reply to a 2FA user carries only the challenge, and any other user gets its id, email and a false flag |
| Runs.PasswordSessionSkipsSecondFactor | api/src/config/passport.ts:31-38 | for a 2FA user the strategy accepts, the session serialized from the password step restores that very row, and with it the `api` setup replies 200 and leaves the flag false, though no code was checked |

## Left out

- Runs.EnrolmentRoundTrip: the server clock is not modelled. The source calls the TOTP library without a time, so the library reads the clock. In the model one `Oracles` value stands for one moment and serves every request in a run. That the same code validates after verify therefore holds only at that moment. In the program it holds only while the validate request falls inside the drift window of the verify.
- TOTP computation, base32 decoding and secret generation happen inside the TOTP library. The model has only an uninterpreted acceptance function and a generated-secret parameter. No window arithmetic is modelled, and the drift window is only passed through.
- bcrypt is modelled as uninterpreted `hash` and `compare`. `hash` is a function of the plaintext, with the random salt folded into it. Cost factor 10 is not represented.
- The QR image and the otpauth URL, including the `YourAppName (id)` label, are left out. Setup replies carry only the secret. A QR rendering failure is modelled.
- Express, the session and passport middleware, and `logout` are left out. Only the middleware's outcome at the password step is stated, in `Runs.PasswordSessionSkipsSecondFactor`. `logout` only calls `req.logout`. What `NoReply` leads to depends on the Express and Node versions, which are not part of this model. Express 4 does not catch a rejected async handler, and from Node 15 on an unhandled rejection ends the process by default; src/server.ts registers no handler for it. `Runs.Run` carrying on after a `NoReply` therefore stands for a restarted server whose table persists.
- Request bodies whose `email` or `password` is missing or not a string are left out. `register` takes strings. A token is a string that may be absent; other JSON types are not modelled.
- Lookups by email compare exactly. Case handling depends on the database collation, which is not part of this model.
- Concurrency between requests is left out. Each handler is one atomic transition, so the race between the duplicate-email check and the insert does not arise.
- The application bootstrap and route wiring are left out. The route files only attach handlers and the `isAuthenticated` middleware, and that middleware's file is not part of this model.
- Signed tokens, replay protection and rate limiting are left out because the code implements none of them.

## Findings

| source | as written | input that shows it | evidently intended | confidence | as-written member | corrected member |
|---|---|---|---|---|---|---|
| src/controllers/twofa.controller.ts:12-17 | `setup2FA` replaces the secret but leaves `twoFactorEnabled` as it was | a user with 2FA enabled and secret `OLDSECRET` runs setup and gets `NEWSECRET`: the user stays enabled against a secret no code was ever confirmed for, so login demands codes from a secret the user may never have scanned | setup clears the flag in the same write, as the `api` controller does (api/src/controllers/twofa.controller.ts:36-37) | high; not executed | Variants.LegacySetupKeepsStaleEnablement | TwoFaApi.Setup |

=== FILE: auth.dfy ===
/** The session-based auth controller: registration, and the login
    handler that runs after the local strategy has authenticated the
    request (see the Passport module). */
module Auth {
  import opened Js
  import opened Http
  import opened Users
  import opened Crypto

  /** The body of `register`'s 201 reply for the new row: no password field. */
  function CreatedReply(u: User): Response {
    Reply(201, CreatedJson(UserCreatedMsg, u.id, u.email))
  }

  /** `register`: hash the password (before and outside the try block, so a
      hashing failure leaves the request unanswered), refuse a known email,
      otherwise create the row holding only the digest. */
  function Register(env: Oracles, email: string, password: string, failing: set<Call>, db: Db): (x: Exchange)
    ensures HashPassword in failing ==> x == Exchange(NoReply, db)
    ensures x.db != db <==> x.res.Reply? && x.res.status == 201
    // a known email is refused and nothing is created
    ensures HashPassword !in failing && FindUser !in failing && FindByEmail(db.rows, email).Some? ==>
              x == Exchange(Reply(400, MessageJson(UserExistsMsg)), db)
    ensures HashPassword !in failing && (FindUser in failing ||
              (FindByEmail(db.rows, email).None? && CreateUser in failing)) ==>
              x == Exchange(Reply(500, MessageJson(ServerErrorMsg)), db)
    // success: exactly one new row, holding the digest, reported without it
    ensures x.res.Reply? && x.res.status == 201 ==>
              && FindByEmail(db.rows, email).None?
              && |x.db.rows| == |db.rows| + 1 && x.db.rows[..|db.rows|] == db.rows
              && var u := x.db.rows[|db.rows|];
              && u.email == email && u.password == env.hash(password)
              && !u.twoFactorEnabled && u.twoFactorSecret.None?
              && x.res == CreatedReply(u)
    ensures x.res.Reply? && x.res.status == 201 <==>
              {HashPassword, FindUser, CreateUser} !! failing && FindByEmail(db.rows, email).None?
  {
    if HashPassword in failing then Exchange(NoReply, db)
    else
      var digest := env.hash(password);
      if FindUser in failing then Exchange(Reply(500, MessageJson(ServerErrorMsg)), db)
      else if FindByEmail(db.rows, email).Some? then Exchange(Reply(400, MessageJson(UserExistsMsg)), db)
      else if CreateUser in failing then Exchange(Reply(500, MessageJson(ServerErrorMsg)), db)
      else
        var (db', u) := Insert(db, email, digest);
        Exchange(CreatedReply(u), db')
  }

  /** `register` keeps the table valid (emails stay unique) and the
      second-factor invariant intact. */
  lemma RegisterPreserves(env: Oracles, email: string, password: string, failing: set<Call>, db: Db)
    requires Valid(db) && TwoFaInvariant(db)
    ensures Valid(Register(env, email, password, failing, db).db)
    ensures TwoFaInvariant(Register(env, email, password, failing, db).db)
  {
  }

  /** `login`: a user with 2FA enabled gets only the challenge marker, any
      other authenticated user gets its public fields, no user gets 401. */
  function Login(user: Option<Principal>): (r: Response)
    ensures r == Reply(200, Require2faJson) <==> user.Some? && user.value.twoFactorEnabled == Some(true)
    ensures r.Reply? && r.body.UserJson? ==>
              && r.status == 200 && user.Some? && r.body.message == LoggedInMsg
              && r.body.userId == user.value.id && r.body.email == user.value.email
              && !r.body.twoFactorEnabled
    ensures user.Some? && user.value.twoFactorEnabled != Some(true) ==> r.Reply? && r.body.UserJson?
    ensures r == Reply(401, MessageJson(AuthFailedMsg)) <==> user.None?
  {
    if user.Some? && OrFalse(user.value.twoFactorEnabled) then Reply(200, Require2faJson)
    else if user.Some? then
      Reply(200, UserJson(LoggedInMsg, user.value.id, user.value.email, OrFalse(user.value.twoFactorEnabled)))
    else Reply(401, MessageJson(AuthFailedMsg))
  }
}

=== FILE: crypto.dfy ===
/** The cryptographic libraries the handlers call, as uninterpreted
    functions: nothing is assumed about them beyond being functions of
    their arguments. */
module Crypto {
  import opened Js
  import opened Users

  datatype Oracles = Oracles(
    /** `speakeasy.totp.verify({ secret, encoding: 'base32', token, window })`;
        an absent window means the library's default. */
    totpOk: (string, Option<string>, Option<nat>) -> bool,
    /** `bcrypt.hash(password, 10)`. */
    hash: string -> Digest,
    /** `bcrypt.compare(password, digest)`. */
    compare: (string, Digest) -> bool)
}

=== FILE: http.dfy ===
/** What a handler sees of its request and what it sends back. Express
    plumbing is reduced to the session user, the body fields read, and the
    status and JSON (or text) body written. */
module Http {
  import opened Js

  /** `req.user` as the session layer leaves it: the fields the handlers read.
      `id` is absent when the object carries no `id` property. */
  datatype Principal = Principal(id: Option<int>, email: string, twoFactorEnabled: Option<bool>)

  /** The response bodies the handlers produce. */
  datatype Body =
    | Text(text: string)                                       // res.send('...')
    | ErrorJson(error: string)                                 // { error }
    | MessageJson(message: string)                             // { message }
    | SuccessJson(success: bool, detail: Option<string>)        // { success[, message] }
    | SetupJson(secret: string)                               // { qrCodeUrl, secret[, otpauthUrl] }
    | CreatedJson(message: string, id: int, email: string)     // register's 201 body
    | UserJson(message: string, userId: Option<int>, email: string, twoFactorEnabled: bool)
    | Require2faJson                                           // { require2fa: true }

  /** `NoReply` stands for a rejected handler promise nobody catches: no
      response is written by the handler. */
  datatype Response = Reply(status: int, body: Body) | NoReply

  /** The external calls a handler makes. A request lists the ones that throw.
      `GenerateSecret` and `VerifyCode` are the TOTP library's secret
      generation and code check. */
  datatype Call =
    | FindUser | UpdateUser | CreateUser | RenderQr | HashPassword | ComparePassword
    | GenerateSecret | VerifyCode

  const UnauthorizedMsg := "Unauthorized"
  const TokenRequiredMsg := "Token is required"
  const NotSetupMsg := "2FA not setup"
  const InvalidTokenMsg := "Invalid token"
  const InternalErrorMsg := "Internal server error"
  const QrErrorMsg := "Error generating QR code"
  const UserExistsMsg := "User already exists."
  const UserCreatedMsg := "User created successfully."
  const ServerErrorMsg := "Internal server error."
  const LoggedInMsg := "User logged in successfully."
  const AuthFailedMsg := "Authentication failed."
  const IncorrectEmailMsg := "Incorrect email."
  const IncorrectPasswordMsg := "Incorrect password."

  /** The `{ success: false, message: 'Invalid token' }` rejection both controllers send. */
  const InvalidTokenReply := Reply(401, SuccessJson(false, Some(InvalidTokenMsg)))

  /** The `{ success: true }` acceptance both controllers send. */
  const AcceptedReply := Reply(200, SuccessJson(true, None))

  /** The `{ error: '2FA not setup' }` reply both controllers send. */
  const NotSetupReply := Reply(400, ErrorJson(NotSetupMsg))
}

=== FILE: js.dfy ===
/** The pieces of JavaScript value semantics the handlers depend on:
    values that may be `undefined`/`null`, and truthiness tests such as
    `if (!token)` or `if (!user.twoFactorSecret)`. */
module Js {

  /** A value that may be absent (`undefined` or `null` in the source). */
  datatype Option<+T> = None | Some(value: T)

  /** `!!s` for a string that may be absent: present and not the empty string. */
  predicate TruthyString(s: Option<string>) {
    s.Some? && s.value != ""
  }

  /** `!!n` for a number that may be absent: present and not zero. */
  predicate TruthyNumber(n: Option<int>) {
    n.Some? && n.value != 0
  }

  /** `b ?? false`. */
  function OrFalse(b: Option<bool>): bool {
    match b
    case Some(v) => v
    case None => false
  }
}

=== FILE: passport.dfy ===
/** The local strategy's verify callback (email and password against the
    user table) and the session serialization of users by id. */
module Passport {
  import opened Js
  import opened Http
  import opened Users
  import opened Crypto

  /** What the strategy passes to `done`: an error, a refusal with its
      message, or the authenticated user. */
  datatype Done = DoneError | DoneRefused(message: string) | DoneUser(user: User)

  /** What `deserializeUser` passes to `done`: an error, or the row found
      (absent when no row has that id). */
  datatype Restored = RestoreError | Restored(user: Option<User>)

  /** The verify callback: look the email up, then compare the password
      with the stored digest. A throwing lookup or comparison is an error. */
  function Authenticate(env: Oracles, email: string, password: string, failing: set<Call>, db: Db): (d: Done)
    // success only for the row with that email whose digest matches
    ensures d.DoneUser? ==>
              d.user in db.rows && d.user.email == email && env.compare(password, d.user.password)
              && {FindUser, ComparePassword} !! failing
    // an unknown email is refused before any comparison is made
    ensures FindUser !in failing ==>
              (d == DoneRefused(IncorrectEmailMsg) <==> forall u :: u in db.rows ==> u.email != email)
    ensures d == DoneRefused(IncorrectPasswordMsg) ==>
              exists u :: u in db.rows && u.email == email && !env.compare(password, u.password)
    ensures d == DoneError <==>
              FindUser in failing || (FindByEmail(db.rows, email).Some? && ComparePassword in failing)
    ensures d.DoneRefused? ==> d.message in {IncorrectEmailMsg, IncorrectPasswordMsg}
  {
    if FindUser in failing then DoneError
    else match FindByEmail(db.rows, email)
      case None => DoneRefused(IncorrectEmailMsg)
      case Some(u) =>
        if ComparePassword in failing then DoneError
        else if !env.compare(password, u.password) then DoneRefused(IncorrectPasswordMsg)
        else DoneUser(u)
  }

  /** In a valid table, a stored user with a matching password is exactly
      who the strategy authenticates, and every other outcome names the
      reason: the two refusals carry different messages. */
  lemma AuthenticateStored(env: Oracles, u: User, password: string, failing: set<Call>, db: Db)
    requires Valid(db) && u in db.rows
    requires {FindUser, ComparePassword} !! failing
    ensures env.compare(password, u.password) ==> Authenticate(env, u.email, password, failing, db) == DoneUser(u)
    ensures !env.compare(password, u.password) ==>
              Authenticate(env, u.email, password, failing, db) == DoneRefused(IncorrectPasswordMsg)
    ensures Authenticate(env, u.email, password, failing, db) != DoneRefused(IncorrectEmailMsg)
  {
  }

  /** `serializeUser`: the session keeps only the id. */
  function SerializeUser(u: User): int {
    u.id
  }

  /** `deserializeUser`: look the id up again. */
  function DeserializeUser(id: int, failing: set<Call>, db: Db): (r: Restored)
    ensures r.RestoreError? <==> FindUser in failing
    ensures r.Restored? && r.user.Some? ==> r.user.value in db.rows && r.user.value.id == id
    ensures r.Restored? && r.user.None? ==> forall u :: u in db.rows ==> u.id != id
  {
    if FindUser in failing then RestoreError else Restored(FindById(db.rows, id))
  }

  /** Serializing a stored user and deserializing the id gives back that
      same row. */
  lemma SessionRoundTrip(u: User, failing: set<Call>, db: Db)
    requires Valid(db) && u in db.rows && FindUser !in failing
    ensures DeserializeUser(SerializeUser(u), failing, db) == Restored(Some(u))
  {
  }
}

=== FILE: runs.dfy ===
/** Sequences of requests against one user table: registration plus the
    three 2FA handlers of either controller, applied one after another,
    each as one atomic transition. */
module Runs {
  import opened Js
  import opened Http
  import opened Users
  import opened Crypto
  import TwoFaApi
  import TwoFaLegacy
  import Auth
  import Passport

  datatype Request =
    | RegisterReq(email: string, password: string, failing: set<Call>)
    | SetupReq(user: Option<Principal>, generated: string, failing: set<Call>)
    | VerifyReq(user: Option<Principal>, token: Option<string>, failing: set<Call>)
    | ValidateReq(user: Option<Principal>, token: Option<string>, failing: set<Call>)

  /** One request, served by `register` or the `api` 2FA controller. */
  function Step(env: Oracles, db: Db, r: Request): Exchange {
    match r
    case RegisterReq(email, password, failing) => Auth.Register(env, email, password, failing, db)
    case SetupReq(user, generated, failing) => TwoFaApi.Setup(user, generated, failing, db)
    case VerifyReq(user, token, failing) => TwoFaApi.Verify(env, user, token, failing, db)
    case ValidateReq(user, token, failing) => TwoFaApi.Validate(env, user, token, failing, db)
  }

  /** One request, served by `register` or the legacy 2FA controller. */
  function LegacyStep(env: Oracles, db: Db, r: Request): Exchange {
    match r
    case RegisterReq(email, password, failing) => Auth.Register(env, email, password, failing, db)
    case SetupReq(user, generated, failing) => TwoFaLegacy.Setup(user, generated, failing, db)
    case VerifyReq(user, token, failing) => TwoFaLegacy.Verify(env, user, token, failing, db)
    case ValidateReq(user, token, failing) => TwoFaLegacy.Validate(env, user, token, failing, db)
  }

  /** The table after serving `rs` in order. */
  function Run(env: Oracles, db: Db, rs: seq<Request>, legacy: bool): Db
    decreases |rs|
  {
    if |rs| == 0 then db
    else
      var x := if legacy then LegacyStep(env, db, rs[0]) else Step(env, db, rs[0]);
      Run(env, x.db, rs[1..], legacy)
  }

  /** The generator never hands an empty secret to any setup in `rs`. */
  predicate NonEmptySecrets(rs: seq<Request>) {
    forall i :: 0 <= i < |rs| && rs[i].SetupReq? ==> rs[i].generated != ""
  }

  /** One request keeps the table valid and the second-factor invariant;
      the legacy setup needs a non-empty secret for the latter. */
  lemma StepPreserves(env: Oracles, db: Db, r: Request, legacy: bool)
    requires Valid(db) && TwoFaInvariant(db)
    requires legacy && r.SetupReq? ==> r.generated != ""
    ensures var x := if legacy then LegacyStep(env, db, r) else Step(env, db, r);
            Valid(x.db) && TwoFaInvariant(x.db)
  {
    match r
    case RegisterReq(email, password, failing) =>
      Auth.RegisterPreserves(env, email, password, failing, db);
    case SetupReq(user, generated, failing) =>
      if legacy {
        TwoFaLegacy.HandlersPreserveValid(env, user, None, generated, failing, db);
        TwoFaLegacy.SetupPreservesInvariant(user, generated, failing, db);
      } else {
        TwoFaApi.HandlersPreserveValid(env, user, None, generated, failing, db);
        TwoFaApi.SetupPreservesInvariant(user, generated, failing, db);
      }
    case VerifyReq(user, token, failing) =>
      if legacy {
        TwoFaLegacy.HandlersPreserveValid(env, user, token, "", failing, db);
        TwoFaLegacy.VerifyPreservesInvariant(env, user, token, failing, db);
      } else {
        TwoFaApi.HandlersPreserveValid(env, user, token, "", failing, db);
        TwoFaApi.VerifyPreservesInvariant(env, user, token, failing, db);
      }
    case ValidateReq(user, token, failing) =>
  }

  /** Any sequence of requests keeps the table valid and every enabled user
      with a secret on file; for the legacy controller this rests on the
      generator never returning an empty secret. */
  lemma {:induction false} RunPreserves(env: Oracles, db: Db, rs: seq<Request>, legacy: bool)
    requires Valid(db) && TwoFaInvariant(db)
    requires legacy ==> NonEmptySecrets(rs)
    ensures Valid(Run(env, db, rs, legacy)) && TwoFaInvariant(Run(env, db, rs, legacy))
    decreases |rs|
  {
    if |rs| > 0 {
      StepPreserves(env, db, rs[0], legacy);
      var x := if legacy then LegacyStep(env, db, rs[0]) else Step(env, db, rs[0]);
      assert legacy ==> NonEmptySecrets(rs[1..]) by {
        if legacy {
          forall i | 0 <= i < |rs[1..]| && rs[1..][i].SetupReq?
            ensures rs[1..][i].generated != ""
          {
            assert rs[1..][i] == rs[i + 1];
          }
        }
      }
      RunPreserves(env, x.db, rs[1..], legacy);
    }
  }

  /** Enrolment end to end with the `api` controller: set up a secret,
      confirm a code the library accepts for it, and the user is enabled
      against that secret; the login reply then carries only the 2FA
      challenge, and the same code validates at that same moment (one
      `Oracles` value stands for one reading of the server clock). */
  lemma EnrolmentRoundTrip(env: Oracles, u: User, generated: string, token: string, db: Db)
    requires Valid(db) && u in db.rows && token != "" && generated != ""
    requires env.totpOk(generated, Some(token), Some(TwoFaApi.DriftWindow))
    ensures var s := TwoFaApi.Setup(Some(PrincipalOf(u)), generated, {}, db);
            var v := TwoFaApi.Verify(env, Some(PrincipalOf(u)), Some(token), {}, s.db);
            var enrolled := u.(twoFactorSecret := Some(generated), twoFactorEnabled := true);
            && s.res == Reply(200, SetupJson(generated))
            && v.res == AcceptedReply
            && FindById(v.db.rows, u.id) == Some(enrolled)
            && Auth.Login(Some(PrincipalOf(enrolled))) == Reply(200, Require2faJson)
            && TwoFaApi.Validate(env, Some(PrincipalOf(enrolled)), Some(token), {}, v.db).res == AcceptedReply
  {
  }

  /** Password login as routed: the local strategy authenticates, then
      `login` answers. The reply to a 2FA user carries only the challenge
      marker; any other user gets id, email and a false flag, never the
      digest. (The session itself is established before `login` runs; see
      PasswordSessionSkipsSecondFactor.) */
  lemma PasswordLogin(env: Oracles, email: string, password: string, failing: set<Call>, db: Db)
    requires Passport.Authenticate(env, email, password, failing, db).DoneUser?
    ensures var u := Passport.Authenticate(env, email, password, failing, db).user;
            var r := Auth.Login(Some(PrincipalOf(u)));
            && u.email == email && env.compare(password, u.password)
            && (u.twoFactorEnabled ==> r == Reply(200, Require2faJson))
            && (!u.twoFactorEnabled ==> r == Reply(200, UserJson(LoggedInMsg, Some(u.id), email, false)))
  {
  }

  /** The session is established at the password step: a 2FA user whom the
      strategy accepts is serialized into the session before any code is
      checked, and the principal restored from it already passes the 2FA
      handlers' session guard. With it, the `api` setup clears the flag
      without any code being presented. */
  lemma PasswordSessionSkipsSecondFactor(env: Oracles, email: string, password: string,
                                         generated: string, db: Db)
    requires Valid(db)
    requires Passport.Authenticate(env, email, password, {}, db).DoneUser?
    requires Passport.Authenticate(env, email, password, {}, db).user.twoFactorEnabled
    ensures var u := Passport.Authenticate(env, email, password, {}, db).user;
            var restored := Passport.DeserializeUser(Passport.SerializeUser(u), {}, db);
            && restored == Passport.Restored(Some(u))
            && Auth.Login(Some(PrincipalOf(u))) == Reply(200, Require2faJson)
            && var x := TwoFaApi.Setup(Some(PrincipalOf(restored.user.value)), generated, {}, db);
            && x.res == Reply(200, SetupJson(generated))
            && FindById(x.db.rows, u.id).Some?
            && !FindById(x.db.rows, u.id).value.twoFactorEnabled
  {
    var u := Passport.Authenticate(env, email, password, {}, db).user;
    Passport.SessionRoundTrip(u, {}, db);
  }
}

=== FILE: twofa_api.dfy ===
/** The 2FA controller of the `api` tree: enrolment (`setup2FA`),
    confirmation (`verify2FA`) and step-up checking (`validate2FA`), each a
    transition from the request and the user table to a response and the
    new table. Every handler body sits in one try/catch, so a call that
    throws becomes a 500 reply. */
module TwoFaApi {
  import opened Js
  import opened Http
  import opened Users
  import opened Crypto

  /** The drift window, in time steps, both checks pass to the TOTP library. */
  const DriftWindow: nat := 1

  const UnauthorizedReply := Reply(401, ErrorJson(UnauthorizedMsg))
  const TokenRequiredReply := Reply(400, ErrorJson(TokenRequiredMsg))
  const InternalErrorReply := Reply(500, ErrorJson(InternalErrorMsg))

  /** `getUserId`: the session user's id, or nothing when there is no
      session user or its id is falsy (absent or 0). */
  function GetUserId(user: Option<Principal>): (r: Option<int>)
    ensures r.Some? ==> r.value != 0 && user.Some? && user.value.id == Some(r.value)
    ensures r.None? ==> user.None? || !TruthyNumber(user.value.id)
  {
    if user.Some? && TruthyNumber(user.value.id) then Some(user.value.id.value) else None
  }

  /** The code `token` is accepted for the secret stored on row `k`. */
  predicate CodeAccepted(env: Oracles, db: Db, k: int, token: Option<string>) {
    var u := FindById(db.rows, k);
    u.Some? && TruthyString(u.value.twoFactorSecret)
    && env.totpOk(u.value.twoFactorSecret.value, token, Some(DriftWindow))
  }

  /** `setup2FA`: store a freshly generated secret and reset enablement in
      one update, then return the secret (and its QR rendering). */
  function Setup(user: Option<Principal>, generated: string, failing: set<Call>, db: Db): (x: Exchange)
    ensures GetUserId(user).None? ==> x == Exchange(UnauthorizedReply, db)
    ensures x.res == Reply(200, SetupJson(generated)) || x.res == UnauthorizedReply
            || x.res == InternalErrorReply
    ensures |x.db.rows| == |db.rows| && x.db.nextId == db.nextId
    // the caller's row and no other: secret replaced, flag cleared whatever it was
    ensures x.db != db ==>
              GetUserId(user).Some?
              && var k := GetUserId(user).value;
              && (forall i :: 0 <= i < |db.rows| && db.rows[i].id != k ==> x.db.rows[i] == db.rows[i])
              && (forall i :: 0 <= i < |db.rows| && db.rows[i].id == k ==>
                    x.db.rows[i] == db.rows[i].(twoFactorSecret := Some(generated), twoFactorEnabled := false))
    // a generator or update that throws, or an update of a missing row, leaves the table alone
    ensures GetUserId(user).Some?
            && (GenerateSecret in failing || UpdateUser in failing || FindById(db.rows, GetUserId(user).value).None?) ==>
              x == Exchange(InternalErrorReply, db)
    // once the write happens the caller's row holds the new secret with the flag
    // cleared; the reply is 200 with that secret, or 500 when the QR rendering
    // after the write fails
    ensures GetUserId(user).Some? && {GenerateSecret, UpdateUser} !! failing
            && FindById(db.rows, GetUserId(user).value).Some? ==>
              var u := FindById(db.rows, GetUserId(user).value).value;
              && FindById(x.db.rows, u.id) == Some(u.(twoFactorSecret := Some(generated), twoFactorEnabled := false))
              && x.res == (if RenderQr in failing then InternalErrorReply else Reply(200, SetupJson(generated)))
  {
    match GetUserId(user)
    case None => Exchange(UnauthorizedReply, db)
    case Some(k) =>
      if GenerateSecret in failing || UpdateUser in failing || FindById(db.rows, k).None? then
        Exchange(InternalErrorReply, db)
      else
        var db' := UpdateById(db, k, Patch(Some(generated), Some(false)));
        FindAfterUpdate(db, k, Patch(Some(generated), Some(false)));
        if RenderQr in failing then Exchange(InternalErrorReply, db')
        else Exchange(Reply(200, SetupJson(generated)), db')
  }

  /** The guards `verify2FA` and `validate2FA` share, in source order:
      session id, token presence, lookup, secret on file, code check. On
      success it yields the caller's id; otherwise the reply to send. */
  function CheckCode(env: Oracles, user: Option<Principal>, token: Option<string>,
                     failing: set<Call>, db: Db): (r: Outcome)
    ensures r.Checked? <==>
              GetUserId(user).Some? && TruthyString(token) && {FindUser, VerifyCode} !! failing
              && CodeAccepted(env, db, GetUserId(user).value, token)
    ensures r.Checked? ==> r.id == GetUserId(user).value
    ensures GetUserId(user).None? ==> r == Refused(UnauthorizedReply)
    // the token guard comes before any lookup
    ensures GetUserId(user).Some? && !TruthyString(token) ==> r == Refused(TokenRequiredReply)
    ensures GetUserId(user).Some? && TruthyString(token) && FindUser in failing ==> r == Refused(InternalErrorReply)
    ensures GetUserId(user).Some? && TruthyString(token) && FindUser !in failing ==>
              var u := FindById(db.rows, GetUserId(user).value);
              && (u.None? || !TruthyString(u.value.twoFactorSecret) ==> r == Refused(NotSetupReply))
              // a throwing code check is caught like any other call
              && (u.Some? && TruthyString(u.value.twoFactorSecret) && VerifyCode in failing
                  ==> r == Refused(InternalErrorReply))
              && ((u.Some? && TruthyString(u.value.twoFactorSecret) && VerifyCode !in failing
                   && !env.totpOk(u.value.twoFactorSecret.value, token, Some(DriftWindow)))
                  ==> r == Refused(InvalidTokenReply))
  {
    match GetUserId(user)
    case None => Refused(UnauthorizedReply)
    case Some(k) =>
      if !TruthyString(token) then Refused(TokenRequiredReply)
      else if FindUser in failing then Refused(InternalErrorReply)
      else match FindById(db.rows, k)
        case None => Refused(NotSetupReply)
        case Some(u) =>
          if !TruthyString(u.twoFactorSecret) then Refused(NotSetupReply)
          else if VerifyCode in failing then Refused(InternalErrorReply)
          else if env.totpOk(u.twoFactorSecret.value, token, Some(DriftWindow)) then Checked(k)
          else Refused(InvalidTokenReply)
  }

  /** `verify2FA`: confirm enrolment. An accepted code sets the caller's
      `twoFactorEnabled`; nothing else is ever written. */
  function Verify(env: Oracles, user: Option<Principal>, token: Option<string>,
                  failing: set<Call>, db: Db): (x: Exchange)
    ensures |x.db.rows| == |db.rows| && x.db.nextId == db.nextId
    ensures x.res == AcceptedReply <==>
              CheckCode(env, user, token, failing, db).Checked? && UpdateUser !in failing
    ensures x.res != AcceptedReply ==> x.db == db
    ensures x.res == AcceptedReply ==>
              var k := GetUserId(user).value;
              var u := FindById(db.rows, k).value;
              && FindById(x.db.rows, k) == Some(u.(twoFactorEnabled := true))
              && (forall i :: 0 <= i < |db.rows| && db.rows[i].id != k ==> x.db.rows[i] == db.rows[i])
              && (forall i :: 0 <= i < |db.rows| && db.rows[i].id == k ==>
                    x.db.rows[i] == db.rows[i].(twoFactorEnabled := true))
    ensures CheckCode(env, user, token, failing, db).Refused? ==>
              x.res == CheckCode(env, user, token, failing, db).reply
    ensures CheckCode(env, user, token, failing, db).Checked? && UpdateUser in failing ==>
              x.res == InternalErrorReply
  {
    match CheckCode(env, user, token, failing, db)
    case Refused(reply) => Exchange(reply, db)
    case Checked(k) =>
      if UpdateUser in failing then Exchange(InternalErrorReply, db)
      else
        FindAfterUpdate(db, k, Patch(None, Some(true)));
        Exchange(AcceptedReply, UpdateById(db, k, Patch(None, Some(true))))
  }

  /** `validate2FA`: check a code for the caller without changing anything. */
  function Validate(env: Oracles, user: Option<Principal>, token: Option<string>,
                    failing: set<Call>, db: Db): (x: Exchange)
    ensures x.db == db
    ensures x.res == AcceptedReply <==> CheckCode(env, user, token, failing, db).Checked?
    ensures CheckCode(env, user, token, failing, db).Refused? ==>
              x.res == CheckCode(env, user, token, failing, db).reply
  {
    match CheckCode(env, user, token, failing, db)
    case Refused(reply) => Exchange(reply, db)
    case Checked(_) => Exchange(AcceptedReply, db)
  }

  /** Both checks pass the same window, so `validate2FA` answers exactly as
      `verify2FA` does whenever the latter's write goes through. */
  lemma ValidateAgreesWithVerify(env: Oracles, user: Option<Principal>, token: Option<string>,
                                 failing: set<Call>, db: Db)
    requires UpdateUser !in failing
    ensures Validate(env, user, token, failing, db).res == Verify(env, user, token, failing, db).res
  {
  }

  /** `setup2FA` keeps the second-factor invariant, whatever secret the
      generator produced: the flag it leaves behind is false. */
  lemma SetupPreservesInvariant(user: Option<Principal>, generated: string, failing: set<Call>, db: Db)
    requires TwoFaInvariant(db)
    ensures TwoFaInvariant(Setup(user, generated, failing, db).db)
  {
  }

  /** `verify2FA` keeps the second-factor invariant: it sets the flag only
      on a row whose secret is on file. */
  lemma VerifyPreservesInvariant(env: Oracles, user: Option<Principal>, token: Option<string>,
                                 failing: set<Call>, db: Db)
    requires Valid(db) && TwoFaInvariant(db)
    ensures TwoFaInvariant(Verify(env, user, token, failing, db).db)
  {
  }

  /** None of the three handlers touches ids or emails, so the table stays valid. */
  lemma HandlersPreserveValid(env: Oracles, user: Option<Principal>, token: Option<string>,
                              generated: string, failing: set<Call>, db: Db)
    requires Valid(db)
    ensures Valid(Setup(user, generated, failing, db).db)
    ensures Valid(Verify(env, user, token, failing, db).db)
    ensures Valid(Validate(env, user, token, failing, db).db)
  {
    if GetUserId(user).Some? {
      UpdatePreservesValid(db, GetUserId(user).value, Patch(Some(generated), Some(false)));
      UpdatePreservesValid(db, GetUserId(user).value, Patch(None, Some(true)));
    }
  }
}

=== FILE: twofa_legacy.dfy ===
/** The older 2FA controller of the `src` tree. It differs from the `api`
    controller in four ways: setup writes the secret without clearing
    `twoFactorEnabled`; there is no token-presence guard; the TOTP check
    uses the library's default window; and there is no try/catch, so a
    call that throws leaves the request without a reply. The session id
    is passed to the ORM as it is, without the falsy-id test. */
module TwoFaLegacy {
  import opened Js
  import opened Http
  import opened Users
  import opened Crypto

  const UnauthorizedText := Reply(401, Text(UnauthorizedMsg))
  const QrErrorReply := Reply(500, ErrorJson(QrErrorMsg))

  /** The ORM call `c`, keyed by `req.user.id`, returns normally: there is a
      session user, it has an id (the ORM rejects a `where` without one),
      and the call is not one that throws. */
  predicate Reaches(user: Option<Principal>, failing: set<Call>, c: Call) {
    user.Some? && user.value.id.Some? && c !in failing
  }

  /** `setup2FA`: store a freshly generated secret; the enablement flag is
      not written. */
  function Setup(user: Option<Principal>, generated: string, failing: set<Call>, db: Db): (x: Exchange)
    ensures user.None? ==> x == Exchange(UnauthorizedText, db)
    ensures x.res == Reply(200, SetupJson(generated)) || x.res == UnauthorizedText
            || x.res == QrErrorReply || x.res == NoReply
    ensures |x.db.rows| == |db.rows| && x.db.nextId == db.nextId
    // only the caller's secret changes; its flag keeps whatever value it had
    ensures x.db != db ==>
              Reaches(user, failing, UpdateUser)
              && var k := user.value.id.value;
              && (forall i :: 0 <= i < |db.rows| && db.rows[i].id != k ==> x.db.rows[i] == db.rows[i])
              && (forall i :: 0 <= i < |db.rows| && db.rows[i].id == k ==>
                    x.db.rows[i] == db.rows[i].(twoFactorSecret := Some(generated)))
    // a generator or update that throws: no reply, nothing written
    ensures user.Some? && (GenerateSecret in failing || !Reaches(user, failing, UpdateUser)
                           || FindById(db.rows, user.value.id.value).None?) ==>
              x == Exchange(NoReply, db)
    // once the write happens the reply is 200 with the secret, or 500 when
    // the QR rendering after the write fails
    ensures Reaches(user, failing, UpdateUser) && GenerateSecret !in failing
            && FindById(db.rows, user.value.id.value).Some? ==>
              var u := FindById(db.rows, user.value.id.value).value;
              && FindById(x.db.rows, u.id) == Some(u.(twoFactorSecret := Some(generated)))
              && x.res == (if RenderQr in failing then QrErrorReply else Reply(200, SetupJson(generated)))
  {
    if user.None? then Exchange(UnauthorizedText, db)
    else if GenerateSecret in failing || !Reaches(user, failing, UpdateUser)
            || FindById(db.rows, user.value.id.value).None? then
      Exchange(NoReply, db)
    else
      var k := user.value.id.value;
      var db' := UpdateById(db, k, Patch(Some(generated), None));
      FindAfterUpdate(db, k, Patch(Some(generated), None));
      if RenderQr in failing then Exchange(QrErrorReply, db')
      else Exchange(Reply(200, SetupJson(generated)), db')
  }

  /** The code `token` is accepted, under the library's default window, for
      the secret stored on row `k`. */
  predicate CodeAccepted(env: Oracles, db: Db, k: int, token: Option<string>) {
    var u := FindById(db.rows, k);
    u.Some? && TruthyString(u.value.twoFactorSecret)
    && env.totpOk(u.value.twoFactorSecret.value, token, None)
  }

  /** The guards `verify2FA` and `validate2FA` share: session user, lookup,
      secret on file, code check. An absent token is handed to the TOTP
      library like any other. */
  function CheckCode(env: Oracles, user: Option<Principal>, token: Option<string>,
                     failing: set<Call>, db: Db): (r: Outcome)
    ensures r.Checked? <==>
              Reaches(user, failing, FindUser) && VerifyCode !in failing
              && CodeAccepted(env, db, user.value.id.value, token)
    ensures r.Checked? ==> r.id == user.value.id.value
    ensures user.None? ==> r == Refused(UnauthorizedText)
    ensures user.Some? && !Reaches(user, failing, FindUser) ==> r == Refused(NoReply)
    ensures Reaches(user, failing, FindUser) ==>
              var u := FindById(db.rows, user.value.id.value);
              && (u.None? || !TruthyString(u.value.twoFactorSecret) ==> r == Refused(NotSetupReply))
              // nothing catches a throwing code check
              && (u.Some? && TruthyString(u.value.twoFactorSecret) && VerifyCode in failing
                  ==> r == Refused(NoReply))
              && ((u.Some? && TruthyString(u.value.twoFactorSecret) && VerifyCode !in failing
                   && !env.totpOk(u.value.twoFactorSecret.value, token, None))
                  ==> r == Refused(InvalidTokenReply))
  {
    if user.None? then Refused(UnauthorizedText)
    else if !Reaches(user, failing, FindUser) then Refused(NoReply)
    else
      var k := user.value.id.value;
      match FindById(db.rows, k)
      case None => Refused(NotSetupReply)
      case Some(u) =>
        if !TruthyString(u.twoFactorSecret) then Refused(NotSetupReply)
        else if VerifyCode in failing then Refused(NoReply)
        else if env.totpOk(u.twoFactorSecret.value, token, None) then Checked(k)
        else Refused(InvalidTokenReply)
  }

  /** `verify2FA`: an accepted code sets the caller's `twoFactorEnabled`. */
  function Verify(env: Oracles, user: Option<Principal>, token: Option<string>,
                  failing: set<Call>, db: Db): (x: Exchange)
    ensures |x.db.rows| == |db.rows| && x.db.nextId == db.nextId
    ensures x.res == AcceptedReply <==>
              CheckCode(env, user, token, failing, db).Checked? && UpdateUser !in failing
    ensures x.res != AcceptedReply ==> x.db == db
    ensures x.res == AcceptedReply ==>
              var k := user.value.id.value;
              var u := FindById(db.rows, k).value;
              && FindById(x.db.rows, k) == Some(u.(twoFactorEnabled := true))
              && (forall i :: 0 <= i < |db.rows| && db.rows[i].id != k ==> x.db.rows[i] == db.rows[i])
              && (forall i :: 0 <= i < |db.rows| && db.rows[i].id == k ==>
                    x.db.rows[i] == db.rows[i].(twoFactorEnabled := true))
    ensures CheckCode(env, user, token, failing, db).Refused? ==>
              x.res == CheckCode(env, user, token, failing, db).reply
    ensures CheckCode(env, user, token, failing, db).Checked? && UpdateUser in failing ==>
              x.res == NoReply
  {
    match CheckCode(env, user, token, failing, db)
    case Refused(reply) => Exchange(reply, db)
    case Checked(k) =>
      if UpdateUser in failing then Exchange(NoReply, db)
      else
        FindAfterUpdate(db, k, Patch(None, Some(true)));
        Exchange(AcceptedReply, UpdateById(db, k, Patch(None, Some(true))))
  }

  /** `validate2FA`: check a code for the caller without changing anything. */
  function Validate(env: Oracles, user: Option<Principal>, token: Option<string>,
                    failing: set<Call>, db: Db): (x: Exchange)
    ensures x.db == db
    ensures x.res == AcceptedReply <==> CheckCode(env, user, token, failing, db).Checked?
    ensures CheckCode(env, user, token, failing, db).Refused? ==>
              x.res == CheckCode(env, user, token, failing, db).reply
  {
    match CheckCode(env, user, token, failing, db)
    case Refused(reply) => Exchange(reply, db)
    case Checked(_) => Exchange(AcceptedReply, db)
  }

  /** As in the `api` controller, both checks call the library the same way. */
  lemma ValidateAgreesWithVerify(env: Oracles, user: Option<Principal>, token: Option<string>,
                                 failing: set<Call>, db: Db)
    requires UpdateUser !in failing
    ensures Validate(env, user, token, failing, db).res == Verify(env, user, token, failing, db).res
  {
  }

  /** Setup keeps the second-factor invariant only because the generator
      never returns an empty secret: the flag is left as it was. */
  lemma SetupPreservesInvariant(user: Option<Principal>, generated: string, failing: set<Call>, db: Db)
    requires TwoFaInvariant(db)
    requires generated != ""
    ensures TwoFaInvariant(Setup(user, generated, failing, db).db)
  {
  }

  /** Verify sets the flag only on a row whose secret is on file. */
  lemma VerifyPreservesInvariant(env: Oracles, user: Option<Principal>, token: Option<string>,
                                 failing: set<Call>, db: Db)
    requires Valid(db) && TwoFaInvariant(db)
    ensures TwoFaInvariant(Verify(env, user, token, failing, db).db)
  {
  }

  /** None of the three handlers touches ids or emails, so the table stays valid. */
  lemma HandlersPreserveValid(env: Oracles, user: Option<Principal>, token: Option<string>,
                              generated: string, failing: set<Call>, db: Db)
    requires Valid(db)
    ensures Valid(Setup(user, generated, failing, db).db)
    ensures Valid(Verify(env, user, token, failing, db).db)
    ensures Valid(Validate(env, user, token, failing, db).db)
  {
    if user.Some? && user.value.id.Some? {
      UpdatePreservesValid(db, user.value.id.value, Patch(Some(generated), None));
      UpdatePreservesValid(db, user.value.id.value, Patch(None, Some(true)));
    }
  }
}

=== FILE: users.dfy ===
/** The user record (the `IUser` shape) and the user table the handlers read
    and write through the ORM. The table is a sequence of rows in insertion
    order plus the next autoincrement id; lookups, the single-row update and
    the insert are the only operations the handlers use. */
module Users {
  import opened Js
  import opened Http

  /** A password digest as produced by the password hasher. It is a type of
      its own, so a row can never hold a plaintext password. */
  datatype Digest = Digest(encoded: string)

  datatype User = User(
    id: int,
    email: string,
    password: Digest,
    twoFactorEnabled: bool,
    twoFactorSecret: Option<string>)

  /** The user table: rows plus the id the next insert receives. */
  datatype Db = Db(rows: seq<User>, nextId: int)

  /** What a handler leaves behind: the reply and the table after it. */
  datatype Exchange = Exchange(res: Response, db: Db)

  /** The result of a handler's guard checks: the caller's id, or the reply
      that refuses the request. */
  datatype Outcome = Checked(id: int) | Refused(reply: Response)

  /** The fields an update writes; `None` leaves a field as it is. */
  datatype Patch = Patch(secret: Option<string>, enabled: Option<bool>)

  /** The second-factor invariant of one record: enabled only with a secret on file. */
  predicate TwoFaConsistent(u: User) {
    u.twoFactorEnabled ==> TruthyString(u.twoFactorSecret)
  }

  /** Every row of the table satisfies the second-factor invariant. */
  predicate TwoFaInvariant(db: Db) {
    forall i :: 0 <= i < |db.rows| ==> TwoFaConsistent(db.rows[i])
  }

  /** Table well-formedness: the autoincrement counter starts at 1, ids are
      positive, below the counter and unique; emails are unique. */
  predicate Valid(db: Db) {
    && 0 < db.nextId
    && (forall i :: 0 <= i < |db.rows| ==> 0 < db.rows[i].id < db.nextId)
    && (forall i, j :: 0 <= i < j < |db.rows| ==> db.rows[i].id != db.rows[j].id)
    && (forall i, j :: 0 <= i < j < |db.rows| ==> db.rows[i].email != db.rows[j].email)
  }

  /** `req.user` as the session layer rebuilds it from a stored row. */
  function PrincipalOf(u: User): Principal {
    Principal(Some(u.id), u.email, Some(u.twoFactorEnabled))
  }

  /** `findUnique({ where: { id } })`: the first row with that id, if any. */
  function FindById(rows: seq<User>, id: int): (r: Option<User>)
    ensures r.Some? ==> r.value in rows && r.value.id == id
    ensures r.Some? ==> exists i :: 0 <= i < |rows| && rows[i] == r.value
                                    && forall j :: 0 <= j < i ==> rows[j].id != id
    ensures r.None? <==> forall u :: u in rows ==> u.id != id
  {
    if |rows| == 0 then None
    else if rows[0].id == id then Some(rows[0])
    else FindById(rows[1..], id)
  }

  /** `findUnique({ where: { email } })`: the first row with that email, if any. */
  function FindByEmail(rows: seq<User>, email: string): (r: Option<User>)
    ensures r.Some? ==> r.value in rows && r.value.email == email
    ensures r.Some? ==> exists i :: 0 <= i < |rows| && rows[i] == r.value
                                    && forall j :: 0 <= j < i ==> rows[j].email != email
    ensures r.None? <==> forall u :: u in rows ==> u.email != email
  {
    if |rows| == 0 then None
    else if rows[0].email == email then Some(rows[0])
    else FindByEmail(rows[1..], email)
  }

  /** The fields of `u` after writing `p`. */
  function ApplyPatch(u: User, p: Patch): User {
    u.(twoFactorSecret := if p.secret.Some? then Some(p.secret.value) else u.twoFactorSecret,
       twoFactorEnabled := if p.enabled.Some? then p.enabled.value else u.twoFactorEnabled)
  }

  /** `update({ where: { id }, data })` on a table that has the row: the row
      with that id takes the patched fields, every other row, the row order
      and the counter stay as they were. */
  function UpdateById(db: Db, id: int, p: Patch): (r: Db)
    ensures |r.rows| == |db.rows| && r.nextId == db.nextId
    ensures forall i :: 0 <= i < |db.rows| && db.rows[i].id != id ==> r.rows[i] == db.rows[i]
    ensures forall i :: 0 <= i < |db.rows| && db.rows[i].id == id ==>
              r.rows[i].id == id && r.rows[i].email == db.rows[i].email
              && r.rows[i].password == db.rows[i].password
  {
    Db(seq(|db.rows|, i requires 0 <= i < |db.rows| =>
           if db.rows[i].id == id then ApplyPatch(db.rows[i], p) else db.rows[i]),
       db.nextId)
  }

  /** `create({ data: { email, password } })`: a new row with the next
      autoincrement id; 2FA starts disabled and without a secret. */
  function Insert(db: Db, email: string, password: Digest): (r: (Db, User))
    ensures r.1.email == email && r.1.password == password
    ensures !r.1.twoFactorEnabled && r.1.twoFactorSecret.None?
    ensures r.0.rows == db.rows + [r.1] && r.0.nextId > db.nextId
    ensures Valid(db) ==> forall u :: u in db.rows ==> u.id != r.1.id
  {
    var u := User(db.nextId, email, password, false, None);
    (Db(db.rows + [u], db.nextId + 1), u)
  }

  /** A lookup by id after an update finds the first row with that id,
      patched; the lookup fails after the update exactly when it failed before. */
  lemma FindAfterUpdate(db: Db, id: int, p: Patch)
    ensures FindById(UpdateById(db, id, p).rows, id)
            == (if FindById(db.rows, id).Some? then Some(ApplyPatch(FindById(db.rows, id).value, p)) else None)
  {
    // follows from the first-match clauses of FindById
  }

  /** In a valid table, the row found by id (or by email) is the one stored. */
  lemma FindStored(db: Db, u: User)
    requires Valid(db) && u in db.rows
    ensures FindById(db.rows, u.id) == Some(u)
    ensures FindByEmail(db.rows, u.email) == Some(u)
  {
    var i :| 0 <= i < |db.rows| && db.rows[i] == u;
    var j :| 0 <= j < |db.rows| && db.rows[j] == FindById(db.rows, u.id).value;
    var k :| 0 <= k < |db.rows| && db.rows[k] == FindByEmail(db.rows, u.email).value;
    // ids and emails are unique, so both lookups land on row i
    if i < j { assert db.rows[i].id != db.rows[j].id; }
    if j < i { assert db.rows[j].id != db.rows[i].id; }
    if i < k { assert db.rows[i].email != db.rows[k].email; }
    if k < i { assert db.rows[k].email != db.rows[i].email; }
  }

  /** An update never touches ids or emails, so the table stays valid. */
  lemma UpdatePreservesValid(db: Db, id: int, p: Patch)
    requires Valid(db)
    ensures Valid(UpdateById(db, id, p))
  {
  }
}

=== FILE: variants.dfy ===
/** How the older `src` 2FA controller differs from the `api` one, stated
    on the same inputs. */
module Variants {
  import opened Js
  import opened Http
  import opened Users
  import opened Crypto
  import TwoFaApi
  import TwoFaLegacy

  /** For a signed-in, stored user both setups store the new secret and
      return it; only the `api` one clears the enablement flag. */
  lemma SetupVariantsDiffer(u: User, generated: string, failing: set<Call>, db: Db)
    requires Valid(db) && u in db.rows && {GenerateSecret, UpdateUser, RenderQr} !! failing
    ensures TwoFaApi.Setup(Some(PrincipalOf(u)), generated, failing, db).res == Reply(200, SetupJson(generated))
    ensures TwoFaLegacy.Setup(Some(PrincipalOf(u)), generated, failing, db).res == Reply(200, SetupJson(generated))
    ensures FindById(TwoFaApi.Setup(Some(PrincipalOf(u)), generated, failing, db).db.rows, u.id)
            == Some(u.(twoFactorSecret := Some(generated), twoFactorEnabled := false))
    ensures FindById(TwoFaLegacy.Setup(Some(PrincipalOf(u)), generated, failing, db).db.rows, u.id)
            == Some(u.(twoFactorSecret := Some(generated)))
  {
    FindStored(db, u);
  }

  /** The as-written legacy setup on a user who had 2FA enabled: the user
      stays enabled against a secret no code has ever been checked against. */
  lemma LegacySetupKeepsStaleEnablement()
    ensures var u := User(1, "a@example.com", Digest("h"), true, Some("OLDSECRET"));
            var x := TwoFaLegacy.Setup(Some(PrincipalOf(u)), "NEWSECRET", {}, Db([u], 2));
            && x.res == Reply(200, SetupJson("NEWSECRET"))
            && FindById(x.db.rows, 1) == Some(u.(twoFactorSecret := Some("NEWSECRET")))
            && FindById(x.db.rows, 1).value.twoFactorEnabled
  {
  }

  /** Without a token the `api` checks stop at the token guard, while the
      legacy ones ask the TOTP library about an absent token: its answer
      decides, and if it throws, nothing replies. */
  lemma AbsentTokenHandling(env: Oracles, u: User, failing: set<Call>, db: Db)
    requires Valid(db) && u in db.rows && FindUser !in failing
    requires TruthyString(u.twoFactorSecret)
    ensures TwoFaApi.Validate(env, Some(PrincipalOf(u)), None, failing, db).res == TwoFaApi.TokenRequiredReply
    ensures TwoFaLegacy.Validate(env, Some(PrincipalOf(u)), None, failing, db).res
            == (if VerifyCode in failing then NoReply
                else if env.totpOk(u.twoFactorSecret.value, None, None) then AcceptedReply
                else InvalidTokenReply)
  {
  }

  /** Where the library answers the same for window 1 and its default
      window, the two `validate2FA` handlers agree on every present token;
      when the code check throws, only the `api` one replies (500). */
  lemma ValidateVariantsAgree(env: Oracles, u: User, token: string, failing: set<Call>, db: Db)
    requires Valid(db) && u in db.rows && token != ""
    requires u.twoFactorSecret.Some? ==>
               env.totpOk(u.twoFactorSecret.value, Some(token), Some(TwoFaApi.DriftWindow))
               == env.totpOk(u.twoFactorSecret.value, Some(token), None)
    ensures {FindUser, VerifyCode} !! failing ==>
              TwoFaApi.Validate(env, Some(PrincipalOf(u)), Some(token), failing, db)
              == TwoFaLegacy.Validate(env, Some(PrincipalOf(u)), Some(token), failing, db)
    ensures FindUser !in failing && VerifyCode in failing && TruthyString(u.twoFactorSecret) ==>
              && TwoFaApi.Validate(env, Some(PrincipalOf(u)), Some(token), failing, db).res
                 == TwoFaApi.InternalErrorReply
              && TwoFaLegacy.Validate(env, Some(PrincipalOf(u)), Some(token), failing, db).res == NoReply
  {
  }
}
